=== FILE: README.md ===
# WRS-2025 vision bookkeeping, modelled in Dafny

The repository holds two camera scripts for an underwater vehicle. Both
hand their image work to OpenCV and then do small, exact bookkeeping on
what OpenCV returns. This project models that bookkeeping.

- **Wall script** (`wall_pattern_recongnitiion.py`):
  - Each contour of at least 200 px² is classified as Shellfish,
    Corrosion or Algae. The kind chosen is the one whose fitted-shape area
    is nearest to the contour's area. Ties go to the kind listed first.
  - The candidates are grouped by kind in first-appearance order.
  - Each group is sorted by distance from the frame origin and cut in one
    pass into clusters. A candidate joins the open cluster when it lies
    closer than 130 px to some member of that cluster.
  - The clusters are counted per kind, keyed by each cluster's first
    member.
  - As written, a kind with a single candidate produces no cluster at all.
    The model keeps this and proves it (`Clusters.ClusterGroup`).
- **Hole script** (`holes_detection.py`):
  - A contour is accepted when its centroid exists and its area lies in
    [300, 3000]. The active-zone clause can only accept areas in
    [300, 2700], so it never changes the verdict.
  - Accepted contours are visited in ascending area order. Those with an
    ellipse fit offer their centroid to an append-only store of hole
    centres.
  - A centroid is a repeat when any stored centre is within 30 px of it
    on x OR on y.
  - The number shown is the size of the store.

Modelling choices:
- Contours are given by their measurements. Areas, moments and
  fitted-shape areas are `real`; a failed fit is `None`.
- Centroids are integer points. Python's `int()` is modelled as truncation
  toward zero.
- Distances are compared as exact squared integers: `< 130` becomes
  `< 16900`.
- Python's stable `sorted` is a stable insertion sort. `StableSort.SortedUnique`
  shows that any stable sort returns the same sequence.
- Dictionaries whose key order matters are sequences of groups.
- The hole store is a value passed into each frame and returned from it.

Modules, in dependency order:
- `Optional`, `Geometry` and `SeqFacts`: support types and generic
  facts about sequence concatenation.
- `StableSort`.
- `Centroid`.
- `EnclosingFigure`, `Candidates`, `ShapesDict`, `Clusters`,
  `ClusterCounts` and `Outgrowth`: the wall script.
- `HoleTracker`, `HoleGate` and `Holes`: the hole script.

## Model

| member | source | states |
|---|---|---|
| Geometry.SquareIsProduct | src/code/wall_pattern_recongnitiion.py:104 | the squared length built by odd-number steps is the product of the difference with itself, so squared distances are the squares of `math.dist` |
| Centroid.Trunc | src/code/holes_detection.py:56-57 | `int()` keeps the sign: a non-negative quotient gives a non-negative coordinate, a non-positive one a non-positive coordinate |
| Centroid.ContourCenter | src/code/holes_detection.py:53-60 | the centroid is absent exactly when the zeroth moment is zero (the division raises) |
| Centroid.CenterTruncatesMean | src/code/holes_detection.py:56-57 | a defined centroid is the mean x and mean y, each truncated toward zero as `int()` does |
| Centroid.TruncTowardZero | src/code/wall_pattern_recongnitiion.py:87-88 | `int()` of a float keeps the integer part, rounding toward zero, and never moves away from zero |
| Centroid.TruncUnique | src/code/wall_pattern_recongnitiion.py:87-88 | the truncation of a real is a single integer, so the centroid is fully determined by the moments |
| EnclosingFigure.Rank | src/code/wall_pattern_recongnitiion.py:49-53 | each kind has its position in the dictionary's key order Shellfish, Corrosion, Algae |
| EnclosingFigure.KindArea | src/code/wall_pattern_recongnitiion.py:49-53 | the Shellfish area is the smaller of the circle and ellipse areas (a failed ellipse counting as 0); it is one of the two and no larger than either |
| EnclosingFigure.FailedFitsGiveZero | src/code/wall_pattern_recongnitiion.py:27-53 | a failed ellipse fit makes the Shellfish area 0, and a failed triangle fit makes the Algae area 0 |
| EnclosingFigure.AreaDiff | src/code/wall_pattern_recongnitiion.py:56-58 | the difference is non-negative and is the contour area minus the kind's area, or its negation |
| EnclosingFigure.FirstMinIndex | src/code/wall_pattern_recongnitiion.py:60-62 | Python's `min` with a key returns the first position of the least difference: no difference is smaller, and every earlier one is strictly larger |
| EnclosingFigure.Classify | src/code/wall_pattern_recongnitiion.py:56-62 | the chosen kind's difference is no larger than any kind's, and every kind listed before it has a strictly larger difference |
| EnclosingFigure.ClassifyUnique | src/code/wall_pattern_recongnitiion.py:56-62 | those two properties single out the chosen kind, so ties always go to the first-listed kind |
| Candidates.Objects | src/code/wall_pattern_recongnitiion.py:170-177 | every candidate is the classified, centred form of a contour of area at least 200, and every such contour yields its candidate |
| Candidates.ObjectsSingle | src/code/wall_pattern_recongnitiion.py:172-177 | one contour yields its classified candidate if its area is at least 200 and nothing otherwise |
| Candidates.ObjectsAppend | src/code/wall_pattern_recongnitiion.py:171-177 | contours are handled one at a time in order: the candidates of two consecutive stretches are those of the first followed by those of the second, so candidates keep contour order, one per gated contour |
| Candidates.AreaGateBoundary | src/code/wall_pattern_recongnitiion.py:173-174 | a contour of area 199 is skipped and one of area 200 is classified |
| StableSort.InsertBy | src/code/wall_pattern_recongnitiion.py:101 | inserting into a sorted sequence keeps it sorted, adds one element and introduces nothing else |
| StableSort.InsertByMultiset | src/code/wall_pattern_recongnitiion.py:101 | insertion adds the new element once and keeps every old one |
| StableSort.InsertByKeyClass | src/code/wall_pattern_recongnitiion.py:101 | the inserted element goes in front of the elements that share its key |
| StableSort.SortBy | src/code/wall_pattern_recongnitiion.py:101 | the result is ordered by key and a permutation of the input, and elements with equal keys keep their input order |
| StableSort.SortedUnique | src/code/holes_detection.py:129 | a sorted sequence is determined by its per-key subsequences, so every stable sort gives the same output |
| StableSort.FirstKeyIsLeast | src/code/holes_detection.py:129 | in a sorted sequence no element's key is below the first element's |
| ShapesDict.OfKind | src/code/wall_pattern_recongnitiion.py:147-151 | the candidates of one kind, in input order, taken only from the input |
| ShapesDict.GroupIndex | src/code/wall_pattern_recongnitiion.py:148 | finds the first group holding a kind, and finds none exactly when no group holds it |
| ShapesDict.GroupIndexFirst | src/code/wall_pattern_recongnitiion.py:148 | the first group of a kind is the one found |
| ShapesDict.AddCandidate | src/code/wall_pattern_recongnitiion.py:148-151 | after one step the candidate's kind has a group ending with the candidate, at most one group is added, an existing group of that kind keeps all its members and gains the candidate at the end, and the groups of other kinds are untouched; no group changes kind, and a group is added exactly when the kind had none |
| ShapesDict.TotalSizeAppend | src/code/wall_pattern_recongnitiion.py:149 | opening a new group adds its size to the total |
| ShapesDict.TotalSizeUpdate | src/code/wall_pattern_recongnitiion.py:151 | extending a group changes the total by the size difference |
| ShapesDict.AddCandidateStep | src/code/wall_pattern_recongnitiion.py:147-151 | one loop step keeps the dictionary faithful to the candidates seen so far and adds one to the total |
| ShapesDict.GetShapesDict | src/code/wall_pattern_recongnitiion.py:145-152 | the groups have distinct kinds and are never empty; each holds exactly its kind's candidates in input order; a group exists exactly for the kinds present; sizes sum to the input length |
| Clusters.MinSqDistIsMin | src/code/wall_pattern_recongnitiion.py:104 | the minimum distance to the open cluster is attained by a member and bounds every member |
| Clusters.NearIff | src/code/wall_pattern_recongnitiion.py:104-105 | joining needs a distance below 130 to at least one member of the open cluster, not only to its last member |
| Clusters.Split | src/code/wall_pattern_recongnitiion.py:103-111 | the emitted clusters begin with the open cluster and laid end to end give back the visited candidates |
| Clusters.ChainedSnoc | src/code/wall_pattern_recongnitiion.py:105-106 | appending a candidate near the open cluster keeps every member near an earlier one |
| Clusters.SplitValid | src/code/wall_pattern_recongnitiion.py:102-111 | the loop's output is a valid split: non-empty runs whose concatenation is the input, with every non-first member near an earlier member of its run, and every run after the first starting with a candidate at least 130 from every member of the run before |
| Clusters.ValidRunsTail | src/code/wall_pattern_recongnitiion.py:107-109 | a valid split without its first run is a valid split of the remaining candidates |
| Clusters.RunBoundary | src/code/wall_pattern_recongnitiion.py:107-109 | a run ends before the end of the input only at a candidate far from every member of that run |
| Clusters.InsideFirstRun | src/code/wall_pattern_recongnitiion.py:105-106 | inside a run each candidate is near the candidates before it |
| Clusters.ValidRunsUnique | src/code/wall_pattern_recongnitiion.py:102-111 | there is only one valid split of a sequence |
| Clusters.MemberInFlatten | src/code/wall_pattern_recongnitiion.py:106 | every cluster member is one of the visited candidates |
| Clusters.ClusterGroup | src/code/wall_pattern_recongnitiion.py:100-111 | a group of one candidate emits no cluster, larger groups emit at least one; clusters are non-empty and hold only the group's candidates |
| Clusters.SplitNonEmpty | src/code/wall_pattern_recongnitiion.py:102-111 | every emitted cluster has at least one member |
| Clusters.ClusterGroupValid | src/code/wall_pattern_recongnitiion.py:101-111 | for two candidates or more, the clusters are the valid split of the group sorted by distance from the origin |
| Clusters.ClusterGroupUnique | src/code/wall_pattern_recongnitiion.py:101-111 | any valid split of the sorted group is the one the loop emits |
| Clusters.ConcatRuns | src/code/wall_pattern_recongnitiion.py:100-112 | concatenating the clusters of successive groups keeps them non-empty and single-kinded |
| Clusters.ClusterGroupShape | src/code/wall_pattern_recongnitiion.py:100-111 | the clusters of a single-kind group are non-empty and share that kind |
| Clusters.UniformTail | src/code/wall_pattern_recongnitiion.py:100 | a dictionary whose groups each hold one kind keeps that property without its first group |
| Clusters.CreateClusters | src/code/wall_pattern_recongnitiion.py:98-112 | clusters are never empty, and when every group holds only its kind, all members of a cluster share one kind |
| Clusters.CreateClustersSingle | src/code/wall_pattern_recongnitiion.py:100-111 | the clusters of one group are exactly what that group's clustering emits |
| Clusters.CreateClustersAppend | src/code/wall_pattern_recongnitiion.py:98-112 | the loop over the dictionary handles groups one at a time in order: the clusters of two consecutive stretches of groups are those of the first followed by those of the second |
| ClusterCounts.CountClusters | src/code/wall_pattern_recongnitiion.py:116-123 | a kind is a key exactly when some cluster's first member has it, and its value is the number of such clusters |
| ClusterCounts.CountsSumToClusters | src/code/wall_pattern_recongnitiion.py:116-123 | the three kinds' counts add up to the number of clusters |
| ClusterCounts.FirstKindCountAppend | src/code/wall_pattern_recongnitiion.py:117-123 | counting over concatenated cluster lists adds the counts |
| ClusterCounts.FirstKindCountUniform | src/code/wall_pattern_recongnitiion.py:118 | when every cluster starts with one kind, all count for it and none for any other |
| Outgrowth.FirstGroupCount | src/code/wall_pattern_recongnitiion.py:100-111 | the clusters of one kind's group count only for that kind |
| Outgrowth.GroupClusterCountTail | src/code/wall_pattern_recongnitiion.py:100 | looking up a kind skips the first group unless that group is the kind's |
| Outgrowth.CreateClustersCount | src/code/wall_pattern_recongnitiion.py:179-181 | the clusters starting with a kind are exactly the clusters of that kind's group |
| Outgrowth.DetectOutgrowth | src/code/wall_pattern_recongnitiion.py:164-182 | every kind shown has a count of at least one |
| Outgrowth.DetectOutgrowthCounts | src/code/wall_pattern_recongnitiion.py:164-182 | a kind is shown exactly when at least two gated candidates have it, and its count is the number of clusters its own candidates form, whatever the other kinds are |
| HoleTracker.Matches | src/code/holes_detection.py:79 | a centre always matches itself, so resubmitting a stored centre is a repeat |
| HoleTracker.FirstMatch | src/code/holes_detection.py:76-81 | the scan stops at the first stored centre within 30 on x or on y, and finds none exactly when no stored centre matches |
| HoleTracker.CheckHoleCenter | src/code/holes_detection.py:75-83 | the centre is new exactly when no stored centre is within 30 on x or on y; a new centre is appended, otherwise the store is unchanged |
| HoleTracker.CheckGrowsByAtMostOne | src/code/holes_detection.py:70-83 | the store keeps its old contents as a prefix and grows by at most one per call |
| HoleTracker.CheckKeepsSeparated | src/code/holes_detection.py:76-82 | if any two stored centres differ by more than 30 on both axes before a call, they still do after it |
| HoleTracker.StoredCenterIsRepeat | src/code/holes_detection.py:79-81 | submitting a stored centre returns false and leaves the store unchanged |
| HoleTracker.EmptyStoreAcceptsAll | src/code/holes_detection.py:76-83 | with an empty store every centre is new and becomes hole 1 |
| HoleTracker.SameColumnIsRepeat | src/code/holes_detection.py:79 | one axis within 30 is enough for a repeat, however far apart the other axis is |
| HoleTracker.CheckRecords | src/code/holes_detection.py:75-83 | after a call the submitted centre is accounted for: a stored centre matches it, or it was appended |
| HoleTracker.KnownGrows | src/code/holes_detection.py:70-71 | a store that only grows keeps accounting for every centre it accounted for |
| HoleGate.InActiveZone | src/code/holes_detection.py:111-114 | the zone clause only accepts areas inside [300, 3000], whatever the circle test says |
| HoleGate.CheckContour | src/code/holes_detection.py:117-121 | a contour is accepted exactly when its centroid exists and its area is in [300, 3000], whatever the zone test says |
| HoleGate.AreaBounds | src/code/holes_detection.py:121 | areas 300 and 3000 pass; 299 and 3001 fail |
| Holes.Accepted | src/code/holes_detection.py:128 | the kept contours are contours of the input that pass the contour check, and every input contour that passes is kept |
| Holes.AcceptedSingle | src/code/holes_detection.py:128 | one contour is kept exactly when it passes the contour check |
| Holes.AcceptedAppend | src/code/holes_detection.py:128 | `filter` works contour by contour in order: what it keeps of two consecutive stretches is what it keeps of the first followed by the second, so kept contours stay in contour order, once each |
| Holes.VisitOrder | src/code/holes_detection.py:128-129 | the accepted contours in ascending area, equal areas in contour order, nothing added or lost |
| Holes.OfferedBy | src/code/holes_detection.py:133-138 | a contour offers at most one centroid |
| Holes.Offered | src/code/holes_detection.py:130-138 | the loop offers at most one centroid per visited contour |
| Holes.Visit | src/code/holes_detection.py:131-140 | a contour offering no centroid leaves the store alone; one offering a centroid submits exactly that centroid to the duplicate check |
| Holes.VisitStep | src/code/holes_detection.py:133-140 | one loop body keeps the store as a prefix, adds at most the offered centroid and keeps the store separated |
| Holes.VisitRecords | src/code/holes_detection.py:136-140 | after the loop body the offered centroid, if any, is accounted for by the store |
| Holes.Feed | src/code/holes_detection.py:130-140 | the loop keeps the old store as a prefix, adds at most one centre per offered centroid and only offered centroids, keeps the store separated, and leaves every offered centroid accounted for (recorded, or matched by a stored centre) |
| Holes.FeedSingle | src/code/holes_detection.py:130-140 | the loop over a single contour is exactly one visit of that contour |
| Holes.FeedAppend | src/code/holes_detection.py:129-140 | the loop is the body applied contour by contour in visit order: feeding two consecutive stretches is feeding the first, then the second from the store it left, so earlier (smaller) contours reach the store first |
| Holes.SmallerHoleRecordedFirst | src/code/holes_detection.py:128-140 | of any two accepted, ellipse-fitting holes of different areas whose centroids match, shown to an empty store, only the smaller one's centroid is recorded, in either contour order |
| Holes.TwoHolesVisitOrder | src/code/holes_detection.py:128-129 | two accepted contours of different areas are visited smaller first, in either contour order |
| Holes.TwoHolesFeed | src/code/holes_detection.py:130-140 | feeding two fitting contours whose centroids match records only the first one's centroid |
| Holes.FeedCoversFirst | src/code/holes_detection.py:130-140 | the first contour's centroid stays accounted for through the rest of the loop |
| Holes.OfferedFrom | src/code/holes_detection.py:133-138 | every offered centroid is the centroid of a visited contour that fits an ellipse |
| Holes.DetectHoles | src/code/holes_detection.py:124-143 | the count shown is the store size; it never falls and rises by at most the number of accepted contours; the old store stays a prefix and separation is kept; every centroid the frame offers is accounted for afterwards |
| Holes.NewHolesFromFrame | src/code/holes_detection.py:128-140 | each hole a frame adds is the centroid of a contour of that frame that passes the contour check and fits an ellipse |
| Holes.OffersCentroid | src/code/holes_detection.py:133-138 | a visited contour that fits an ellipse offers its centroid |
| Holes.FrameRecordsEveryHole | src/code/holes_detection.py:128-142 | after a frame, the centroid of every accepted contour that fits an ellipse is accounted for by the store |
| Holes.ShownCounts | src/code/holes_detection.py:142 | over a run of frames sharing one store, the counts shown never decrease and never fall below the starting size |
| Holes.SingleHoleScenario | src/code/holes_detection.py:124-142 | a single fitting hole of area 1000 with a centroid, shown to an empty store, is counted as 1 |

## Left out

- Mask building, contrast scaling, filtering and `findContours`: image processing with no logic of its own. Contours are given by their measurements.
- Shape fitting and the area formulas (`minEnclosingCircle`, `fitEllipse`, `minAreaRect`, `minEnclosingTriangle`, `r²π`): OpenCV numerics. Fitted areas are `real` inputs; a fit that raised is `None` (wall script) or a `false` flag (hole script).
- Floating-point rounding of `contourArea`, the moments, the division in the centroid and `math.dist`: exact reals and exact squared integer distances are used instead.
- `Outgrowth.DetectOutgrowth`: the wall script's `(None, None)` centroid would crash `math.dist`. The model requires every gated contour to have a non-zero zeroth moment (`Candidates.CentersDefined`).
- The active-zone circle and `pointPolygonTest`: rasterisation by OpenCV. The zone test is an opaque flag per contour, and `HoleGate.CheckContour` proves it cannot change the verdict.
- The class-level `hole_centers` list: modelled as a tracker value passed into each frame and returned from it.
- The `count` local of `detect_holes`: it is never read, and the number shown is the size of the store.
- ShapesDict.GetShapesDict: its contract does not fix the order of the groups; the first-appearance order of the kinds is carried by the body alone, and it only decides the display order of the counts, which is left out with the drawing.
- Drawing: contour borders, ellipses, text overlays, the ±10 px cluster box and the screen order in which `draw_outgrowts_counts` lists the kinds. The counts are modelled as a map.
- Screenshots, video capture, the vehicle API, key handling and `print` tracing: I/O.

=== FILE: candidates.dfy ===
/** The per-contour loop of `detect_outgrowth`: contours below the area gate
    are skipped, every other contour is classified and paired with its
    centroid. */
module Candidates {
  import opened Optional
  import opened Geometry
  import opened Centroid
  import opened EnclosingFigure
  import opened SeqFacts

  /** One extracted contour with the library's measurements of it. */
  datatype Blob = Blob(area: real, fits: Fits, moments: Moments)

  /** The source's `(figure, center)` pair: the contour, its kind and its
      centroid. */
  datatype Candidate = Candidate(cont: Blob, kind: Kind, center: Point)

  /** Every contour that passes the area gate has a centroid. The source
      would fail inside `math.dist` on a `(None, None)` centre, so this is
      what it needs of its input. */
  ghost predicate CentersDefined(blobs: seq<Blob>) {
    forall i :: 0 <= i < |blobs| && PassesAreaGate(blobs[i].area) ==> blobs[i].moments.m00 != 0.0
  }

  /** The candidate a gated contour becomes. */
  function Classified(b: Blob): Candidate
    requires b.moments.m00 != 0.0
  {
    Candidate(b, Classify(b.area, b.fits), ContourCenter(b.moments).value)
  }

  /** The candidates of a frame, in contour order. */
  function Objects(blobs: seq<Blob>): (r: seq<Candidate>)
    requires CentersDefined(blobs)
    ensures |r| <= |blobs|
    ensures forall c :: c in r ==> c.cont in blobs && PassesAreaGate(c.cont.area) && c == Classified(c.cont)
    ensures forall i :: 0 <= i < |blobs| && PassesAreaGate(blobs[i].area) ==> Classified(blobs[i]) in r
  {
    if |blobs| == 0 then []
    else
      var rest := Objects(blobs[1..]);
      assert forall i :: 0 < i < |blobs| ==> blobs[i] == blobs[1..][i - 1];
      if !PassesAreaGate(blobs[0].area) then rest
      else [Classified(blobs[0])] + rest
  }

  /** A single contour yields its candidate when it passes the gate and
      nothing otherwise. */
  lemma ObjectsSingle(b: Blob)
    requires PassesAreaGate(b.area) ==> b.moments.m00 != 0.0
    ensures CentersDefined([b])
    ensures Objects([b]) == if PassesAreaGate(b.area) then [Classified(b)] else []
  {
    assert [b][1..] == [];
  }

  /** The loop handles contours one at a time, in order: the candidates of
      two consecutive stretches of contours are those of the first followed
      by those of the second. With `ObjectsSingle`, this fixes both the order
      of the candidates and one candidate per gated contour. */
  lemma {:induction false} ObjectsAppend(a: seq<Blob>, b: seq<Blob>)
    requires CentersDefined(a + b)
    ensures CentersDefined(a) && CentersDefined(b)
    ensures Objects(a + b) == Objects(a) + Objects(b)
  {
    CentersDefinedSplit(a, b);
    if |a| == 0 {
      EmptyAppend(a, b);
    } else {
      ConsAppend(a, b);
      ObjectsCons(a[0], a[1..] + b);
      ObjectsAppend(a[1..], b);
      ObjectsCons(a[0], a[1..]);
      AppendAssoc(Lead(a[0]), Objects(a[1..]), Objects(b));
    }
  }

  /** What the loop emits for one contour: its candidate when gated. */
  function Lead(b: Blob): (r: seq<Candidate>)
    requires PassesAreaGate(b.area) ==> b.moments.m00 != 0.0
  {
    if PassesAreaGate(b.area) then [Classified(b)] else []
  }

  /** The candidates of a stretch with a known first contour are that
      contour's, followed by those of the rest. */
  lemma ObjectsCons(b: Blob, t: seq<Blob>)
    requires CentersDefined([b] + t)
    ensures CentersDefined(t)
    ensures PassesAreaGate(b.area) ==> b.moments.m00 != 0.0
    ensures Objects([b] + t) == Lead(b) + Objects(t)
  {
    assert ([b] + t)[0] == b;
    assert ([b] + t)[1..] == t;
  }

  /** Both halves of a well-formed stretch are well-formed. */
  lemma CentersDefinedSplit(a: seq<Blob>, b: seq<Blob>)
    requires CentersDefined(a + b)
    ensures CentersDefined(a) && CentersDefined(b)
  {
    assert forall i :: 0 <= i < |a| ==> (a + b)[i] == a[i];
    assert forall i :: 0 <= i < |b| ==> (a + b)[|a| + i] == b[i];
  }

  /** The gate is inclusive at 200: a contour of area 199 is skipped and
      one of area 200 is classified. */
  lemma AreaGateBoundary(f: Fits, m: Moments)
    requires m.m00 != 0.0
    ensures Objects([Blob(199.0, f, m)]) == []
    ensures Objects([Blob(200.0, f, m)]) == [Classified(Blob(200.0, f, m))]
  {
  }
}

=== FILE: centroid.dfy ===
/** `get_contour_center` (in both scripts): the centroid of a contour from
    its image moments, truncated toward zero as Python's `int()` does, and
    undefined when the zeroth moment is zero. The moments themselves come
    from OpenCV and are inputs here. */
module Centroid {
  import opened Optional
  import opened Geometry

  /** The three raw moments the centroid is computed from. */
  datatype Moments = Moments(m00: real, m10: real, m01: real)

  /** `t` is `q` with its fractional part dropped, rounding toward zero. */
  ghost predicate TruncatesTo(q: real, t: int) {
    if q >= 0.0 then t as real <= q < t as real + 1.0
    else t as real - 1.0 < q <= t as real
  }

  /** Python's `int(q)` on a float. */
  function Trunc(q: real): (t: int)
    ensures q >= 0.0 ==> t >= 0
    ensures q <= 0.0 ==> t <= 0
  {
    if q >= 0.0 then q.Floor else -((-q).Floor)
  }

  /** `Trunc` drops the fractional part toward zero, so it never moves
      away from zero. */
  lemma TruncTowardZero(q: real)
    ensures TruncatesTo(q, Trunc(q))
    ensures Abs(Trunc(q)) as real <= (if q < 0.0 then -q else q)
  {
  }

  /** At most one integer is the truncation of a given real. */
  lemma TruncUnique(q: real, t: int, u: int)
    requires TruncatesTo(q, t) && TruncatesTo(q, u)
    ensures t == u
  {
  }

  /** The centroid, or `None` when the division by `m00` fails. */
  function ContourCenter(m: Moments): (c: Option<Point>)
    ensures c.None? <==> m.m00 == 0.0
  {
    if m.m00 == 0.0 then None
    else Some(Point(Trunc(m.m10 / m.m00), Trunc(m.m01 / m.m00)))
  }

  /** A defined centroid is the mean position truncated toward zero on
      each axis. */
  lemma CenterTruncatesMean(m: Moments)
    requires m.m00 != 0.0
    ensures TruncatesTo(m.m10 / m.m00, ContourCenter(m).value.x)
    ensures TruncatesTo(m.m01 / m.m00, ContourCenter(m).value.y)
  {
    TruncTowardZero(m.m10 / m.m00);
    TruncTowardZero(m.m01 / m.m00);
  }
}

=== FILE: cluster_counts.dfy ===
/** The per-kind cluster count of `draw_clasters_border`: a dictionary from
    the kind of each cluster's first member to the number of clusters with
    that first kind, built in one pass. */
module ClusterCounts {
  import opened EnclosingFigure
  import opened Candidates
  import opened Clusters

  /** The number of clusters whose first member has kind `k`. */
  function FirstKindCount(cls: seq<seq<Candidate>>, k: Kind): nat
    requires NonEmptyRuns(cls)
  {
    if |cls| == 0 then 0
    else FirstKindCount(cls[..|cls| - 1], k) + (if cls[|cls| - 1][0].kind == k then 1 else 0)
  }

  /** The dictionary's `.get(k, 0)`. */
  function Lookup(m: map<Kind, nat>, k: Kind): nat {
    if k in m then m[k] else 0
  }

  /** The counting loop: a kind seen for the first time gets 1, a kind seen
      again is incremented. A kind is a key exactly when some cluster starts
      with it, and its value is the number of such clusters. */
  function CountClusters(cls: seq<seq<Candidate>>): (m: map<Kind, nat>)
    requires NonEmptyRuns(cls)
    ensures forall k :: k in m <==> FirstKindCount(cls, k) > 0
    ensures forall k :: Lookup(m, k) == FirstKindCount(cls, k)
  {
    if |cls| == 0 then map[]
    else
      var prev := CountClusters(cls[..|cls| - 1]);
      var t := cls[|cls| - 1][0].kind;
      if t !in prev then prev[t := 1] else prev[t := prev[t] + 1]
  }

  /** The counts of the three kinds add up to the number of clusters. */
  lemma {:induction false} CountsSumToClusters(cls: seq<seq<Candidate>>)
    requires NonEmptyRuns(cls)
    ensures var m := CountClusters(cls);
            Lookup(m, Shellfish) + Lookup(m, Corrosion) + Lookup(m, Algae) == |cls|
  {
    if |cls| > 0 {
      CountsSumToClusters(cls[..|cls| - 1]);
    }
  }

  /** Counting is additive over concatenated cluster lists. */
  lemma {:induction false} FirstKindCountAppend(a: seq<seq<Candidate>>, b: seq<seq<Candidate>>, k: Kind)
    requires NonEmptyRuns(a) && NonEmptyRuns(b)
    ensures NonEmptyRuns(a + b)
    ensures FirstKindCount(a + b, k) == FirstKindCount(a, k) + FirstKindCount(b, k)
    decreases |b|
  {
    var ab := a + b;
    assert forall i :: 0 <= i < |ab| ==> ab[i] == (if i < |a| then a[i] else b[i - |a|]);
    if |b| > 0 {
      var b' := b[..|b| - 1];
      FirstKindCountAppend(a, b', k);
      assert ab[..|ab| - 1] == a + b';
    } else {
      assert ab == a;
    }
  }

  /** When every cluster starts with kind `k0`, all of them count for `k0`
      and none for any other kind. */
  lemma {:induction false} FirstKindCountUniform(cls: seq<seq<Candidate>>, k0: Kind, k: Kind)
    requires NonEmptyRuns(cls)
    requires forall i :: 0 <= i < |cls| ==> cls[i][0].kind == k0
    ensures FirstKindCount(cls, k) == if k == k0 then |cls| else 0
  {
    if |cls| > 0 {
      FirstKindCountUniform(cls[..|cls| - 1], k0, k);
    }
  }
}

=== FILE: clusters.dfy ===
/** `create_clasters`: each kind's candidates, sorted by distance from the
    origin, are cut in one pass into runs. A candidate joins the current run
    when it lies closer than 130 pixels to some member of that run (the
    source takes the minimum distance over the run's members); otherwise the
    run is closed and a new one starts with it. The last run is emitted from
    inside the loop, so a kind with a single candidate emits nothing. */
module Clusters {
  import opened Geometry
  import opened StableSort
  import opened Candidates
  import opened ShapesDict
  import opened SeqFacts

  /** The distance bound, in pixels. */
  const Radius: nat := 130

  /** The sort key: `math.dist((0, 0), center)` orders candidates exactly as
      the squared norm does. */
  function NormKey(c: Candidate): real {
    SqNorm(c.center) as real
  }

  /** The smallest squared distance from `x` to a member of `cl`. */
  function MinSqDist(x: Candidate, cl: seq<Candidate>): nat
    requires |cl| > 0
  {
    if |cl| == 1 then SqDist(x.center, cl[0].center)
    else
      var d0 := SqDist(x.center, cl[0].center);
      var rest := MinSqDist(x, cl[1..]);
      if d0 <= rest then d0 else rest
  }

  /** `MinSqDist` is attained by a member and bounds every member. */
  lemma {:induction false} MinSqDistIsMin(x: Candidate, cl: seq<Candidate>)
    requires |cl| > 0
    ensures exists i :: 0 <= i < |cl| && MinSqDist(x, cl) == SqDist(x.center, cl[i].center)
    ensures forall i :: 0 <= i < |cl| ==> MinSqDist(x, cl) <= SqDist(x.center, cl[i].center)
  {
    if |cl| > 1 {
      MinSqDistIsMin(x, cl[1..]);
      assert forall i :: 0 < i < |cl| ==> cl[i] == cl[1..][i - 1];
      var i :| 0 <= i < |cl[1..]| && MinSqDist(x, cl[1..]) == SqDist(x.center, cl[1..][i].center);
      if SqDist(x.center, cl[0].center) <= MinSqDist(x, cl[1..]) {
        assert MinSqDist(x, cl) == SqDist(x.center, cl[0].center);
      } else {
        assert MinSqDist(x, cl) == SqDist(x.center, cl[i + 1].center);
      }
    } else {
      assert MinSqDist(x, cl) == SqDist(x.center, cl[0].center);
    }
  }

  /** The source's test `min(dist(x, p) for p in cl) < 130`. */
  predicate Near(x: Candidate, cl: seq<Candidate>) {
    |cl| > 0 && MinSqDist(x, cl) < Radius * Radius
  }

  /** `Near` means within the radius of at least one member. */
  lemma NearIff(x: Candidate, cl: seq<Candidate>)
    ensures Near(x, cl) <==> exists i :: 0 <= i < |cl| && SqDist(x.center, cl[i].center) < Radius * Radius
  {
    if |cl| > 0 {
      MinSqDistIsMin(x, cl);
    }
  }

  /** The runs laid end to end. */
  function Flatten(cls: seq<seq<Candidate>>): (s: seq<Candidate>)
    ensures |cls| > 0 ==> |s| >= |cls[0]|
  {
    if |cls| == 0 then [] else cls[0] + Flatten(cls[1..])
  }

  /** The loop of `create_clasters` from the state where `cur` is the open
      run and `rest` the candidates still to visit. */
  function Split(cur: seq<Candidate>, rest: seq<Candidate>): (r: seq<seq<Candidate>>)
    requires |cur| > 0
    ensures |r| > 0 && |r[0]| >= |cur| && r[0][..|cur|] == cur
    ensures Flatten(r) == cur + rest
    decreases |rest|
  {
    if |rest| == 0 then [cur]
    else if Near(rest[0], cur) then
      assert cur + rest == (cur + [rest[0]]) + rest[1..];
      Split(cur + [rest[0]], rest[1..])
    else
      var tail := Split([rest[0]], rest[1..]);
      assert ([cur] + tail)[1..] == tail;
      [cur] + tail
  }

  /** No cluster is empty: every cluster has a first member. */
  ghost predicate NonEmptyRuns(cls: seq<seq<Candidate>>) {
    forall k :: 0 <= k < |cls| ==> |cls[k]| > 0
  }

  /** Every non-first member of `cl` is near some member before it. */
  ghost predicate Chained(cl: seq<Candidate>) {
    forall j :: 0 < j < |cl| ==> Near(cl[j], cl[..j])
  }

  /** The declarative description of a correct split of `s`: non-empty runs
      that lay end to end as `s`, each chained, and each run after the first
      starting with a candidate that is not near any member of the run
      before it. */
  ghost predicate ValidRuns(s: seq<Candidate>, cls: seq<seq<Candidate>>) {
    && NonEmptyRuns(cls)
    && Flatten(cls) == s
    && (forall k :: 0 <= k < |cls| ==> Chained(cls[k]))
    && (forall k :: 0 < k < |cls| ==> !Near(cls[k][0], cls[k - 1]))
  }

  /** Appending a candidate that is near the run keeps the run chained. */
  lemma ChainedSnoc(cur: seq<Candidate>, x: Candidate)
    requires Chained(cur) && Near(x, cur)
    ensures Chained(cur + [x])
  {
    var cur' := cur + [x];
    forall j | 0 < j < |cur'| ensures Near(cur'[j], cur'[..j]) {
      if j < |cur| {
        assert cur'[..j] == cur[..j];
      } else {
        assert cur'[..j] == cur;
      }
    }
  }

  /** A closed run in front of a valid split of the rest, whose first
      candidate is not near the closed run, gives a valid split. */
  lemma ConsRunValid(cur: seq<Candidate>, rest: seq<Candidate>, tail: seq<seq<Candidate>>)
    requires |cur| > 0 && Chained(cur)
    requires ValidRuns(rest, tail) && |tail| > 0 && |rest| > 0 && tail[0][0] == rest[0]
    requires !Near(rest[0], cur)
    ensures ValidRuns(cur + rest, [cur] + tail)
  {
    var r := [cur] + tail;
    assert r[1..] == tail;
    assert forall k :: 0 < k < |r| ==> r[k] == tail[k - 1];
  }

  /** The loop produces a valid split of what it visits. */
  lemma {:induction false} SplitValid(cur: seq<Candidate>, rest: seq<Candidate>)
    requires |cur| > 0 && Chained(cur)
    ensures ValidRuns(cur + rest, Split(cur, rest))
    decreases |rest|, 1
  {
    if |rest| == 0 {
      assert Flatten([cur]) == cur + [];
    } else if Near(rest[0], cur) {
      SplitValidJoin(cur, rest);
    } else {
      SplitValidClose(cur, rest);
    }
  }

  /** The step that appends the next candidate to the open run. */
  lemma {:induction false} SplitValidJoin(cur: seq<Candidate>, rest: seq<Candidate>)
    requires |cur| > 0 && Chained(cur)
    requires |rest| > 0 && Near(rest[0], cur)
    ensures ValidRuns(cur + rest, Split(cur, rest))
    decreases |rest|, 0
  {
    var cur' := cur + [rest[0]];
    ChainedSnoc(cur, rest[0]);
    SplitValid(cur', rest[1..]);
    assert cur' + rest[1..] == cur + rest;
    assert Split(cur, rest) == Split(cur', rest[1..]);
  }

  /** The step that closes the open run and starts a new one. */
  lemma {:induction false} SplitValidClose(cur: seq<Candidate>, rest: seq<Candidate>)
    requires |cur| > 0 && Chained(cur)
    requires |rest| > 0 && !Near(rest[0], cur)
    ensures ValidRuns(cur + rest, Split(cur, rest))
    decreases |rest|, 0
  {
    SplitValid([rest[0]], rest[1..]);
    assert [rest[0]] + rest[1..] == rest;
    ConsRunValid(cur, rest, Split([rest[0]], rest[1..]));
  }

  /** Dropping the first run of a valid split leaves a valid split of the
      remainder. */
  lemma ValidRunsTail(s: seq<Candidate>, cls: seq<seq<Candidate>>)
    requires ValidRuns(s, cls) && |cls| > 0
    ensures s[..|cls[0]|] == cls[0]
    ensures ValidRuns(s[|cls[0]|..], cls[1..])
  {
    assert s == cls[0] + Flatten(cls[1..]);
    assert forall k :: 0 <= k < |cls| - 1 ==> cls[1..][k] == cls[k + 1];
  }

  /** Where a valid split ends its first run before the end of `s`, the
      next candidate is not near that run. */
  lemma RunBoundary(s: seq<Candidate>, cls: seq<seq<Candidate>>)
    requires ValidRuns(s, cls) && |cls| > 0 && |cls[0]| < |s|
    ensures !Near(s[|cls[0]|], s[..|cls[0]|])
  {
    assert s == cls[0] + Flatten(cls[1..]);
    assert |cls| > 1;
    assert Flatten(cls[1..]) == cls[1] + Flatten(cls[2..]);
    assert s[|cls[0]|] == cls[1][0];
  }

  /** Inside the first run of a valid split, each candidate is near the
      candidates before it. */
  lemma InsideFirstRun(s: seq<Candidate>, cls: seq<seq<Candidate>>, n: nat)
    requires ValidRuns(s, cls) && |cls| > 0 && 0 < n < |cls[0]|
    ensures Near(s[n], s[..n])
  {
    ValidRunsTail(s, cls);
    assert cls[0][..n] == s[..n];
  }

  /** A valid split is unique: the loop's output is the only sequence of
      runs with the properties of `ValidRuns`. */
  lemma {:induction false} ValidRunsUnique(s: seq<Candidate>, a: seq<seq<Candidate>>, b: seq<seq<Candidate>>)
    requires ValidRuns(s, a) && ValidRuns(s, b)
    ensures a == b
    decreases |s|
  {
    if |a| > 0 && |b| > 0 {
      ValidRunsTail(s, a);
      ValidRunsTail(s, b);
      var n, m := |a[0]|, |b[0]|;
      if n < m {
        RunBoundary(s, a);
        InsideFirstRun(s, b, n);
      } else if m < n {
        RunBoundary(s, b);
        InsideFirstRun(s, a, m);
      }
      ValidRunsUnique(s[n..], a[1..], b[1..]);
      assert a == [a[0]] + a[1..] && b == [b[0]] + b[1..];
    }
  }

  /** Every member of every run appears in the runs laid end to end. */
  lemma {:induction false} MemberInFlatten(cls: seq<seq<Candidate>>, k: nat, j: nat)
    requires k < |cls| && j < |cls[k]|
    ensures cls[k][j] in Flatten(cls)
  {
    if k > 0 {
      MemberInFlatten(cls[1..], k - 1, j);
    }
  }

  /** The clusters of one kind's group: none for a single candidate,
      otherwise the runs of the group sorted by distance from the origin.
      Clusters are never empty, there is at least one when the group has
      two candidates or more, and every cluster member comes from the
      group. */
  function ClusterGroup(members: seq<Candidate>): (r: seq<seq<Candidate>>)
    requires |members| > 0
    ensures |members| == 1 <==> r == []
    ensures NonEmptyRuns(r)
    ensures forall k, j :: 0 <= k < |r| && 0 <= j < |r[k]| ==> r[k][j] in members
  {
    var s := SortBy(members, NormKey);
    if |s| == 1 then []
    else
      var r := Split([s[0]], s[1..]);
      assert Flatten(r) == s;
      forall k, j | 0 <= k < |r| && 0 <= j < |r[k]| ensures r[k][j] in members {
        MemberInFlatten(r, k, j);
        assert r[k][j] in multiset(s);
      }
      SplitNonEmpty([s[0]], s[1..]);
      r
  }

  /** The runs the loop emits are never empty. */
  lemma {:induction false} SplitNonEmpty(cur: seq<Candidate>, rest: seq<Candidate>)
    requires |cur| > 0
    ensures NonEmptyRuns(Split(cur, rest))
    decreases |rest|
  {
    if |rest| > 0 {
      if Near(rest[0], cur) {
        SplitNonEmpty(cur + [rest[0]], rest[1..]);
      } else {
        SplitNonEmpty([rest[0]], rest[1..]);
        var tail := Split([rest[0]], rest[1..]);
        assert forall k :: 0 < k < |[cur] + tail| ==> ([cur] + tail)[k] == tail[k - 1];
      }
    }
  }

  /** For two candidates or more, the clusters are a valid split of the
      group sorted by distance from the origin. */
  lemma ClusterGroupValid(members: seq<Candidate>)
    requires |members| >= 2
    ensures ValidRuns(SortBy(members, NormKey), ClusterGroup(members))
  {
    var s := SortBy(members, NormKey);
    assert Chained([s[0]]);
    SplitValid([s[0]], s[1..]);
    assert [s[0]] + s[1..] == s;
  }

  /** The clusters are the only valid split of the sorted group. */
  lemma ClusterGroupUnique(members: seq<Candidate>, cls: seq<seq<Candidate>>)
    requires |members| >= 2
    requires ValidRuns(SortBy(members, NormKey), cls)
    ensures cls == ClusterGroup(members)
  {
    ClusterGroupValid(members);
    ValidRunsUnique(SortBy(members, NormKey), cls, ClusterGroup(members));
  }

  /** Every group holds only candidates of its own kind. */
  ghost predicate UniformGroups(gs: seq<Group>) {
    forall i, j :: 0 <= i < |gs| && 0 <= j < |gs[i].members| ==> gs[i].members[j].kind == gs[i].kind
  }

  /** All members of each cluster have the kind of its first member. */
  ghost predicate OneKindEach(cls: seq<seq<Candidate>>) {
    forall k, j :: 0 <= k < |cls| && 0 <= j < |cls[k]| ==> cls[k][j].kind == cls[k][0].kind
  }

  lemma ConcatRuns(a: seq<seq<Candidate>>, b: seq<seq<Candidate>>)
    ensures NonEmptyRuns(a) && NonEmptyRuns(b) ==> NonEmptyRuns(a + b)
    ensures OneKindEach(a) && OneKindEach(b) ==> OneKindEach(a + b)
  {
    assert forall k :: 0 <= k < |a| ==> (a + b)[k] == a[k];
    assert forall k :: |a| <= k < |a + b| ==> (a + b)[k] == b[k - |a|];
  }

  /** The clusters of a group are non-empty, and share the group's kind
      when the group holds only that kind. */
  lemma ClusterGroupShape(g: Group)
    requires |g.members| > 0
    ensures NonEmptyRuns(ClusterGroup(g.members))
    ensures (forall j :: 0 <= j < |g.members| ==> g.members[j].kind == g.kind) ==>
              forall k, j :: 0 <= k < |ClusterGroup(g.members)| && 0 <= j < |ClusterGroup(g.members)[k]| ==>
                ClusterGroup(g.members)[k][j].kind == g.kind
  {
  }

  /** `create_clasters` over the whole dictionary, kinds in dictionary
      order. Clusters are never empty, and when every group holds only its
      own kind, the members of each cluster share one kind. */
  function CreateClusters(gs: seq<Group>): (r: seq<seq<Candidate>>)
    requires forall i :: 0 <= i < |gs| ==> |gs[i].members| > 0
    ensures NonEmptyRuns(r)
    ensures UniformGroups(gs) ==> OneKindEach(r)
  {
    if |gs| == 0 then []
    else
      var first := ClusterGroup(gs[0].members);
      var rest := CreateClusters(gs[1..]);
      ClusterGroupShape(gs[0]);
      UniformTail(gs);
      ConcatRuns(first, rest);
      first + rest
  }

  /** One group's clusters are exactly what `ClusterGroup` emits for it. */
  lemma CreateClustersSingle(g: Group)
    requires |g.members| > 0
    ensures CreateClusters([g]) == ClusterGroup(g.members)
  {
    assert [g][1..] == [];
  }

  /** The loop over the dictionary handles groups one at a time, in order:
      the clusters of two consecutive stretches of groups are those of the
      first followed by those of the second. With `CreateClustersSingle`,
      each group contributes its `ClusterGroup` in dictionary order. */
  lemma {:induction false} CreateClustersAppend(gs: seq<Group>, hs: seq<Group>)
    requires forall i :: 0 <= i < |gs| ==> |gs[i].members| > 0
    requires forall i :: 0 <= i < |hs| ==> |hs[i].members| > 0
    ensures forall i :: 0 <= i < |gs + hs| ==> |(gs + hs)[i].members| > 0
    ensures CreateClusters(gs + hs) == CreateClusters(gs) + CreateClusters(hs)
    decreases |gs|
  {
    if |gs| == 0 {
      EmptyAppend(gs, hs);
    } else {
      AppendHeadTail(gs, hs);
      CreateClustersAppend(gs[1..], hs);
      AppendAssoc(ClusterGroup(gs[0].members), CreateClusters(gs[1..]), CreateClusters(hs));
    }
  }

  /** A uniform dictionary stays uniform without its first group. */
  lemma UniformTail(gs: seq<Group>)
    requires |gs| > 0
    ensures UniformGroups(gs) ==> UniformGroups(gs[1..])
    ensures UniformGroups(gs) ==> forall j :: 0 <= j < |gs[0].members| ==> gs[0].members[j].kind == gs[0].kind
  {
    if UniformGroups(gs) {
      forall i, j | 0 <= i < |gs[1..]| && 0 <= j < |gs[1..][i].members|
        ensures gs[1..][i].members[j].kind == gs[1..][i].kind
      {
        assert gs[1..][i] == gs[i + 1];
      }
    }
  }
}

=== FILE: enclosing_figure.dfy ===
/** `get_enclosing_figure` of the wall script: the kind of outgrowth a
    contour is, chosen as the kind whose fitted-shape area is nearest to the
    contour's own area. The shape fits (circle, ellipse, rotated rectangle,
    triangle) are OpenCV's; their areas are inputs here, and a fit that
    raised is `None`. */
module EnclosingFigure {
  import opened Optional

  datatype Kind = Shellfish | Corrosion | Algae

  /** The order of the keys in the source's type-area dictionary; Python's
      `min` scans it in this order. */
  const KindOrder: seq<Kind> := [Shellfish, Corrosion, Algae]

  /** The position of a kind in `KindOrder`. */
  function Rank(k: Kind): (i: nat)
    ensures i < |KindOrder| && KindOrder[i] == k
  {
    match k
    case Shellfish => 0
    case Corrosion => 1
    case Algae => 2
  }

  /** Areas of the fitted shapes; `None` marks a fit that raised. */
  datatype Fits = Fits(circleArea: real, ellipseArea: Option<real>,
                       rectangleArea: real, triangleArea: Option<real>)

  /** The area of a fit, 0 for a fit that raised (the `except` branches). */
  function AreaOr0(a: Option<real>): real {
    if a.Some? then a.value else 0.0
  }

  /** Areas are never negative. */
  ghost predicate ValidFits(f: Fits) {
    && f.circleArea >= 0.0
    && AreaOr0(f.ellipseArea) >= 0.0
    && f.rectangleArea >= 0.0
    && AreaOr0(f.triangleArea) >= 0.0
  }

  /** The area the source assigns to a kind: Shellfish takes the smaller of
      the circle and the ellipse, a failed fit counting as area 0. */
  function KindArea(f: Fits, k: Kind): (a: real)
    ensures k == Shellfish ==> a <= f.circleArea && a <= AreaOr0(f.ellipseArea)
    ensures k == Shellfish ==> a == f.circleArea || a == AreaOr0(f.ellipseArea)
  {
    match k
    case Shellfish =>
      var e := AreaOr0(f.ellipseArea);
      if f.circleArea <= e then f.circleArea else e
    case Corrosion => f.rectangleArea
    case Algae => AreaOr0(f.triangleArea)
  }

  /** A failed ellipse fit makes the Shellfish area 0; a failed triangle fit
      makes the Algae area 0. */
  lemma FailedFitsGiveZero(f: Fits)
    requires ValidFits(f)
    ensures f.ellipseArea.None? ==> KindArea(f, Shellfish) == 0.0
    ensures f.triangleArea.None? ==> KindArea(f, Algae) == 0.0
  {
  }

  /** `abs(cont_area - type_area)`. */
  function AreaDiff(area: real, f: Fits, k: Kind): (d: real)
    ensures d >= 0.0
    ensures d == area - KindArea(f, k) || d == KindArea(f, k) - area
  {
    var delta := area - KindArea(f, k);
    if delta < 0.0 then -delta else delta
  }

  /** Python's `min(ks, key=diff)`: scanning left to right, a later kind
      replaces the best so far only when its difference is strictly
      smaller. The result is the first position holding the least value. */
  function FirstMinIndex(area: real, f: Fits, ks: seq<Kind>): (i: nat)
    requires |ks| > 0
    ensures i < |ks|
    ensures forall j :: 0 <= j < |ks| ==> AreaDiff(area, f, ks[i]) <= AreaDiff(area, f, ks[j])
    ensures forall j :: 0 <= j < i ==> AreaDiff(area, f, ks[j]) > AreaDiff(area, f, ks[i])
  {
    if |ks| == 1 then 0
    else
      var best := FirstMinIndex(area, f, ks[..|ks| - 1]);
      assert ks[..|ks| - 1][best] == ks[best];
      if AreaDiff(area, f, ks[|ks| - 1]) < AreaDiff(area, f, ks[best]) then |ks| - 1
      else best
  }

  /** The kind whose area is nearest to the contour's, ties going to the
      kind listed first. */
  function Classify(area: real, f: Fits): (k: Kind)
    ensures forall j: Kind :: AreaDiff(area, f, k) <= AreaDiff(area, f, j)
    ensures forall j: Kind :: Rank(j) < Rank(k) ==> AreaDiff(area, f, j) > AreaDiff(area, f, k)
  {
    var i := FirstMinIndex(area, f, KindOrder);
    forall j: Kind ensures AreaDiff(area, f, KindOrder[i]) <= AreaDiff(area, f, j) {
      assert KindOrder[Rank(j)] == j;
    }
    KindOrder[i]
  }

  /** The two properties of `Classify` single out its result: a kind that is
      nearest and beats every earlier kind strictly is the classified one. */
  lemma ClassifyUnique(area: real, f: Fits, k: Kind)
    requires forall j: Kind :: AreaDiff(area, f, k) <= AreaDiff(area, f, j)
    requires forall j: Kind :: Rank(j) < Rank(k) ==> AreaDiff(area, f, j) > AreaDiff(area, f, k)
    ensures k == Classify(area, f)
  {
    var c := Classify(area, f);
    assert AreaDiff(area, f, k) == AreaDiff(area, f, c);
    assert Rank(k) == Rank(c);
  }

  /** The smallest contour area the wall script classifies. */
  const MinArea: real := 200.0

  /** The gate in `detect_outgrowth`: contours below the minimum are skipped. */
  predicate PassesAreaGate(area: real) {
    !(area < MinArea)
  }
}

=== FILE: geometry.dfy ===
/** Integer image points and exact squared distances between them. */
module Geometry {

  /** A pixel position; centroids are always integral in both scripts. */
  datatype Point = Point(x: int, y: int)

  /** The frame origin, the reference point for sorting cluster candidates. */
  const Origin: Point := Point(0, 0)

  function Abs(n: int): (r: nat)
    ensures r == n || r == -n
  {
    if n < 0 then -n else n
  }

  /** `n` squared. It is written as a sum of odd numbers
      (1 + 3 + ... + (2|n| - 1)) rather than as `n * n` only to keep
      nonlinear arithmetic away from the solver in every proof that unfolds
      a distance; `SquareIsProduct` proves it equals `n * n`. */
  function Square(n: int): nat
    decreases Abs(n)
  {
    if n == 0 then 0 else Square(Abs(n) - 1) + 2 * Abs(n) - 1
  }

  lemma {:induction false} SquareIsProduct(n: int)
    ensures Square(n) == n * n
    decreases Abs(n)
  {
    if n != 0 {
      var m: int := Abs(n);
      SquareIsProduct(m - 1);
      OddStep(m);
      if n < 0 {
        NegSquare(n);
      }
    }
  }

  /** The next square is the previous one plus the next odd number. */
  lemma OddStep(m: int)
    ensures (m - 1) * (m - 1) + 2 * m - 1 == m * m
  {
    calc {
      (m - 1) * (m - 1);
      (m - 1) * m - (m - 1);
      m * m - m - (m - 1);
    }
  }

  lemma NegSquare(n: int)
    ensures (-n) * (-n) == n * n
  {
  }

  /** The squared Euclidean distance; comparing it with a squared bound
      is exact where the source compares `math.dist` with the bound. */
  function SqDist(a: Point, b: Point): nat
  {
    Square(a.x - b.x) + Square(a.y - b.y)
  }

  /** The squared distance from the origin. */
  function SqNorm(p: Point): nat
  {
    SqDist(Origin, p)
  }
}

=== FILE: hole_gate.dfy ===
/** `check_contour` and `in_active_zone` of the hole script. The zone test
    (is the centroid inside or on the small circle drawn at the frame
    centre) is computed by OpenCV and is an input flag here. */
module HoleGate {
  import opened Optional
  import opened Centroid

  /** One extracted contour: its area, its moments, whether OpenCV could
      fit an ellipse to it, and the zone test's answer for its centroid. */
  datatype HoleContour = HoleContour(area: real, moments: Moments, ellipseFits: bool, zoneHit: bool)

  const MinHoleArea: real := 300.0
  const MaxHoleArea: real := 3000.0
  /** The tighter upper bound of the active-zone clause. */
  const MaxZoneArea: real := 2700.0

  /** `in_active_zone`: inside the centre circle and of area in [300, 2700]. */
  predicate InActiveZone(h: HoleContour)
    ensures InActiveZone(h) ==> MinHoleArea <= h.area <= MaxHoleArea
  {
    h.zoneHit && MinHoleArea <= h.area <= MaxZoneArea
  }

  /** `check_contour`: rejected without a centroid, otherwise accepted by
      the zone clause or by the area range. Because the zone clause's range
      lies inside [300, 3000], acceptance never depends on the zone test. */
  predicate CheckContour(h: HoleContour)
    ensures CheckContour(h) <==> ContourCenter(h.moments).Some? && MinHoleArea <= h.area <= MaxHoleArea
  {
    match ContourCenter(h.moments)
    case None => false
    case Some(_) => InActiveZone(h) || (MinHoleArea <= h.area <= MaxHoleArea)
  }

  /** The bounds are inclusive at both ends. */
  lemma AreaBounds(m: Moments, fits: bool, zone: bool)
    requires m.m00 != 0.0
    ensures CheckContour(HoleContour(300.0, m, fits, zone))
    ensures CheckContour(HoleContour(3000.0, m, fits, zone))
    ensures !CheckContour(HoleContour(299.0, m, fits, zone))
    ensures !CheckContour(HoleContour(3001.0, m, fits, zone))
  {
  }
}

=== FILE: hole_tracker.dfy ===
/** `check_hole_center` / `insert_hole_center`: the store of hole centres
    seen so far. A candidate is a repeat when ANY stored centre is within 30
    pixels of it on the x axis OR on the y axis (each axis on its own, not a
    radius). A new centre is appended and the store never shrinks. The
    source keeps the store in a class-level list; here it is a value passed
    in and returned. */
module HoleTracker {
  import opened Optional
  import opened Geometry

  /** The per-axis tolerance, in pixels. */
  const Tolerance: nat := 30

  /** The recorded hole centres; a centre's position is its ordinal. */
  datatype Tracker = Tracker(centers: seq<Point>)

  /** A tracker that has seen nothing. */
  const EmptyTracker: Tracker := Tracker([])

  /** The source's duplicate test against one stored centre `c`. */
  predicate Matches(c: Point, p: Point)
    ensures c == p ==> Matches(c, p)
  {
    Abs(p.x - c.x) <= Tolerance || Abs(p.y - c.y) <= Tolerance
  }

  /** The scan of `check_hole_center`: the first stored centre that
      matches, where the loop returns early. */
  function FirstMatch(centers: seq<Point>, p: Point): (r: Option<nat>)
    ensures r.None? <==> forall i :: 0 <= i < |centers| ==> !Matches(centers[i], p)
    ensures r.Some? ==> r.value < |centers| && Matches(centers[r.value], p)
    ensures r.Some? ==> forall j :: 0 <= j < r.value ==> !Matches(centers[j], p)
  {
    if |centers| == 0 then None
    else if Matches(centers[0], p) then Some(0)
    else
      var r := FirstMatch(centers[1..], p);
      assert forall i :: 0 < i < |centers| ==> centers[i] == centers[1..][i - 1];
      if r.None? then None else Some(r.value + 1)
  }

  /** The result of one call: whether the centre was new, and the store
      after the call. */
  datatype Verdict = Verdict(isNew: bool, tracker: Tracker)

  /** `check_hole_center`: new exactly when no stored centre matches; a new
      centre is appended, otherwise the store is left alone. */
  function CheckHoleCenter(t: Tracker, p: Point): (v: Verdict)
    ensures v.isNew <==> forall i :: 0 <= i < |t.centers| ==> !Matches(t.centers[i], p)
    ensures v.isNew ==> v.tracker.centers == t.centers + [p]
    ensures !v.isNew ==> v.tracker == t
  {
    if FirstMatch(t.centers, p).Some? then Verdict(false, t)
    else Verdict(true, Tracker(t.centers + [p]))
  }

  /** Any two stored centres are more than the tolerance apart on both
      axes. */
  ghost predicate Separated(centers: seq<Point>) {
    forall i, j :: 0 <= i < j < |centers| ==> !Matches(centers[i], centers[j])
  }

  /** Some stored centre matches `p`: the store already accounts for a
      hole at `p`. */
  ghost predicate Known(centers: seq<Point>, p: Point) {
    exists c :: c in centers && Matches(c, p)
  }

  /** After a call the centre is accounted for: either a stored centre
      matched it, or it was appended (every centre matches itself). */
  lemma CheckRecords(t: Tracker, p: Point)
    ensures Known(CheckHoleCenter(t, p).tracker.centers, p)
  {
    var v := CheckHoleCenter(t, p);
    if v.isNew {
      assert p == v.tracker.centers[|t.centers|];
      assert Matches(p, p);
    } else {
      var i := FirstMatch(t.centers, p).value;
      assert t.centers[i] in v.tracker.centers;
    }
  }

  /** A store that keeps an older one as a prefix still accounts for every
      centre the older one did. */
  lemma KnownGrows(a: seq<Point>, b: seq<Point>, p: Point)
    requires |a| <= |b| && b[..|a|] == a
    requires Known(a, p)
    ensures Known(b, p)
  {
    var c :| c in a && Matches(c, p);
    var i :| 0 <= i < |a| && a[i] == c;
    assert b[i] == c;
  }

  /** The store only grows, by at most one centre per call. */
  lemma CheckGrowsByAtMostOne(t: Tracker, p: Point)
    ensures var t' := CheckHoleCenter(t, p).tracker;
            |t.centers| <= |t'.centers| <= |t.centers| + 1 && t'.centers[..|t.centers|] == t.centers
  {
  }

  /** Every call keeps the stored centres separated. */
  lemma CheckKeepsSeparated(t: Tracker, p: Point)
    ensures Separated(t.centers) ==> Separated(CheckHoleCenter(t, p).tracker.centers)
  {
    var v := CheckHoleCenter(t, p);
    if v.isNew && Separated(t.centers) {
      var c := v.tracker.centers;
      forall i, j | 0 <= i < j < |c| ensures !Matches(c[i], c[j]) {
        if j == |t.centers| {
          assert c[i] == t.centers[i] && c[j] == p;
        } else {
          assert c[i] == t.centers[i] && c[j] == t.centers[j];
        }
      }
    }
  }

  /** A centre already in the store is always reported as a repeat and
      changes nothing. */
  lemma StoredCenterIsRepeat(t: Tracker, p: Point)
    requires p in t.centers
    ensures CheckHoleCenter(t, p) == Verdict(false, t)
  {
    var i :| 0 <= i < |t.centers| && t.centers[i] == p;
    assert Matches(t.centers[i], p);
  }

  /** With an empty store every centre is new. */
  lemma EmptyStoreAcceptsAll(p: Point)
    ensures CheckHoleCenter(EmptyTracker, p) == Verdict(true, Tracker([p]))
  {
  }

  /** The duplicate test is per axis: sharing an x within tolerance makes a
      repeat however far apart the y coordinates are. */
  lemma SameColumnIsRepeat(t: Tracker, p: Point, i: nat)
    requires i < |t.centers| && Abs(p.x - t.centers[i].x) <= Tolerance
    ensures !CheckHoleCenter(t, p).isNew
  {
  }
}

=== FILE: holes.dfy ===
/** `detect_holes` after contour extraction: keep the accepted contours,
    visit them in ascending area order, skip those without an ellipse fit,
    offer each remaining centroid to the tracker, and show the size of the
    store. Frames share the tracker and nothing else. */
module Holes {
  import opened Optional
  import opened Geometry
  import opened StableSort
  import opened Centroid
  import opened HoleGate
  import opened HoleTracker
  import opened SeqFacts

  /** `filter(check_contour, cont)`, in contour order. */
  function Accepted(cs: seq<HoleContour>): (r: seq<HoleContour>)
    ensures |r| <= |cs|
    ensures forall h :: h in r ==> h in cs && CheckContour(h)
    ensures forall i :: 0 <= i < |cs| && CheckContour(cs[i]) ==> cs[i] in r
  {
    if |cs| == 0 then []
    else
      var rest := Accepted(cs[1..]);
      assert forall i :: 0 < i < |cs| ==> cs[i] == cs[1..][i - 1];
      if CheckContour(cs[0]) then [cs[0]] + rest else rest
  }

  /** A single contour is kept exactly when it passes the check. */
  lemma AcceptedSingle(h: HoleContour)
    ensures Accepted([h]) == if CheckContour(h) then [h] else []
  {
    assert [h][1..] == [];
  }

  /** `filter` works contour by contour, in order: what it keeps of two
      consecutive stretches is what it keeps of the first followed by what
      it keeps of the second. */
  lemma {:induction false} AcceptedAppend(a: seq<HoleContour>, b: seq<HoleContour>)
    ensures Accepted(a + b) == Accepted(a) + Accepted(b)
  {
    if |a| == 0 {
      EmptyAppend(a, b);
    } else {
      AppendHeadTail(a, b);
      AcceptedAppend(a[1..], b);
    }
  }

  /** The sort key, `cv.contourArea`. */
  function AreaKey(h: HoleContour): real {
    h.area
  }

  /** The order in which one frame's contours reach the tracker: the
      accepted ones, by ascending area, ties in contour order. */
  function VisitOrder(cs: seq<HoleContour>): (r: seq<HoleContour>)
    ensures SortedBy(r, AreaKey)
    ensures forall v :: KeyClass(r, AreaKey, v) == KeyClass(Accepted(cs), AreaKey, v)
    ensures |r| == |Accepted(cs)|
    ensures forall h :: h in r ==> h in cs && CheckContour(h)
    ensures forall h :: h in cs && CheckContour(h) ==> h in r
  {
    var a := Accepted(cs);
    var r := SortBy(a, AreaKey);
    assert forall h :: h in r ==> h in multiset(a);
    assert forall h :: h in a ==> h in multiset(r);
    r
  }

  /** The centroid the loop offers for one contour: none without an
      ellipse fit or a centroid. */
  function OfferedBy(h: HoleContour): (ps: seq<Point>)
    ensures |ps| <= 1
  {
    if h.ellipseFits && ContourCenter(h.moments).Some? then [ContourCenter(h.moments).value] else []
  }

  /** The centroids the loop offers to the tracker, in visiting order. */
  function Offered(hs: seq<HoleContour>): (ps: seq<Point>)
    ensures |ps| <= |hs|
  {
    if |hs| == 0 then [] else OfferedBy(hs[0]) + Offered(hs[1..])
  }

  /** The loop body for one contour: skipped without an ellipse fit or a
      centroid, otherwise its centroid is offered to the tracker. */
  function Visit(t: Tracker, h: HoleContour): (t': Tracker)
    ensures OfferedBy(h) == [] ==> t' == t
    ensures forall p :: OfferedBy(h) == [p] ==> t' == CheckHoleCenter(t, p).tracker
  {
    if !h.ellipseFits then t
    else match ContourCenter(h.moments)
      case None => t
      case Some(p) => CheckHoleCenter(t, p).tracker
  }

  /** One visit keeps the old store as a prefix, adds at most the offered
      centroid, and keeps the store separated. */
  lemma VisitStep(t: Tracker, h: HoleContour)
    ensures var t1 := Visit(t, h);
            && |t.centers| <= |t1.centers| <= |t.centers| + |OfferedBy(h)|
            && t1.centers[..|t.centers|] == t.centers
            && (Separated(t.centers) ==> Separated(t1.centers))
            && (forall i :: |t.centers| <= i < |t1.centers| ==> t1.centers[i] in OfferedBy(h))
  {
    if h.ellipseFits && ContourCenter(h.moments).Some? {
      var p := ContourCenter(h.moments).value;
      assert Visit(t, h) == CheckHoleCenter(t, p).tracker;
      CheckKeepsSeparated(t, p);
      CheckGrowsByAtMostOne(t, p);
    }
  }

  /** After the loop body the offered centroid, if any, is accounted for
      by the store. */
  lemma VisitRecords(t: Tracker, h: HoleContour)
    ensures forall p :: p in OfferedBy(h) ==> Known(Visit(t, h).centers, p)
  {
    if h.ellipseFits && ContourCenter(h.moments).Some? {
      CheckRecords(t, ContourCenter(h.moments).value);
    }
  }

  /** The tracker after the loop body has run for each of `hs` in turn: it
      keeps the old store as a prefix, grows by at most one per offered
      centroid, stays separated, and every new centre is an offered
      centroid. */
  function Feed(t: Tracker, hs: seq<HoleContour>): (t': Tracker)
    ensures |t.centers| <= |t'.centers| <= |t.centers| + |Offered(hs)|
    ensures t'.centers[..|t.centers|] == t.centers
    ensures Separated(t.centers) ==> Separated(t'.centers)
    ensures forall i :: |t.centers| <= i < |t'.centers| ==> t'.centers[i] in Offered(hs)
    ensures forall p :: p in Offered(hs) ==> Known(t'.centers, p)
    decreases |hs|
  {
    if |hs| == 0 then t
    else
      var t1 := Visit(t, hs[0]);
      var t' := Feed(t1, hs[1..]);
      VisitStep(t, hs[0]);
      assert t'.centers[..|t.centers|] == t1.centers[..|t.centers|];
      assert forall i :: |t.centers| <= i < |t1.centers| ==> t'.centers[i] == t1.centers[i];
      FeedCoversFirst(t, hs, t1, t');
      t'
  }

  /** The centroid offered by the first contour stays accounted for through
      the rest of the loop. */
  lemma FeedCoversFirst(t: Tracker, hs: seq<HoleContour>, t1: Tracker, t': Tracker)
    requires |hs| > 0 && t1 == Visit(t, hs[0])
    requires |t1.centers| <= |t'.centers| && t'.centers[..|t1.centers|] == t1.centers
    requires forall p :: p in Offered(hs[1..]) ==> Known(t'.centers, p)
    ensures forall p :: p in Offered(hs) ==> Known(t'.centers, p)
  {
    VisitRecords(t, hs[0]);
    forall p | p in Offered(hs) ensures Known(t'.centers, p) {
      if p in OfferedBy(hs[0]) {
        KnownGrows(t1.centers, t'.centers, p);
      }
    }
  }

  /** Every offered centroid is the centroid of one of the visited
      contours that fits an ellipse. */
  lemma {:induction false} OfferedFrom(hs: seq<HoleContour>, p: Point)
    requires p in Offered(hs)
    ensures exists h :: h in hs && h.ellipseFits && ContourCenter(h.moments) == Some(p)
  {
    if p in OfferedBy(hs[0]) {
      assert hs[0] in hs;
    } else {
      OfferedFrom(hs[1..], p);
      var h :| h in hs[1..] && h.ellipseFits && ContourCenter(h.moments) == Some(p);
      assert h in hs;
    }
  }

  /** Feeding one contour is running the loop body once. */
  lemma FeedSingle(t: Tracker, h: HoleContour)
    ensures Feed(t, [h]) == Visit(t, h)
  {
    assert [h][1..] == [];
  }

  /** The loop visits contours strictly in sequence order: feeding two
      consecutive stretches is feeding the first and then, from the tracker
      it leaves, the second. With `FeedSingle`, the tracker after a frame
      is the loop body applied to the contours one by one in `VisitOrder`. */
  lemma {:induction false} FeedAppend(t: Tracker, a: seq<HoleContour>, b: seq<HoleContour>)
    ensures Feed(t, a + b) == Feed(Feed(t, a), b)
    decreases |a|
  {
    if |a| == 0 {
      EmptyAppend(a, b);
    } else {
      AppendHeadTail(a, b);
      FeedAppend(Visit(t, a[0]), a[1..], b);
    }
  }

  /** What one frame leaves behind: the tracker and the number shown. */
  datatype FrameResult = FrameResult(tracker: Tracker, shown: nat)

  /** One frame: the count shown is the size of the store, which only
      grows, by no more than the number of accepted contours, and only by
      centroids of accepted contours that fit an ellipse. */
  function DetectHoles(t: Tracker, cs: seq<HoleContour>): (r: FrameResult)
    ensures r.shown == |r.tracker.centers|
    ensures |t.centers| <= r.shown <= |t.centers| + |Accepted(cs)|
    ensures r.tracker.centers[..|t.centers|] == t.centers
    ensures Separated(t.centers) ==> Separated(r.tracker.centers)
    ensures forall i :: |t.centers| <= i < r.shown ==> r.tracker.centers[i] in Offered(VisitOrder(cs))
    ensures forall p :: p in Offered(VisitOrder(cs)) ==> Known(r.tracker.centers, p)
  {
    var order := VisitOrder(cs);
    var t' := Feed(t, order);
    FrameResult(t', |t'.centers|)
  }

  /** Each hole a frame adds is the centroid of a contour of that frame
      which passes the contour check and fits an ellipse. */
  lemma NewHolesFromFrame(t: Tracker, cs: seq<HoleContour>, i: int)
    requires |t.centers| <= i < DetectHoles(t, cs).shown
    ensures exists h :: h in cs && CheckContour(h) && h.ellipseFits
                        && ContourCenter(h.moments) == Some(DetectHoles(t, cs).tracker.centers[i])
  {
    var p := DetectHoles(t, cs).tracker.centers[i];
    OfferedFrom(VisitOrder(cs), p);
  }

  /** A visited contour that fits an ellipse offers its centroid. */
  lemma {:induction false} OffersCentroid(hs: seq<HoleContour>, h: HoleContour)
    requires h in hs && h.ellipseFits && ContourCenter(h.moments).Some?
    ensures ContourCenter(h.moments).value in Offered(hs)
  {
    if hs[0] != h {
      OffersCentroid(hs[1..], h);
    }
  }

  /** After a frame, every accepted contour that fits an ellipse has its
      centroid accounted for by the store: recorded by this frame, or
      matched by a centre recorded before. */
  lemma FrameRecordsEveryHole(t: Tracker, cs: seq<HoleContour>, h: HoleContour)
    requires h in cs && CheckContour(h) && h.ellipseFits
    ensures Known(DetectHoles(t, cs).tracker.centers, ContourCenter(h.moments).value)
  {
    OffersCentroid(VisitOrder(cs), h);
  }

  /** Order matters: of two accepted holes that fit an ellipse and whose
      centroids match, the one of smaller area is visited first, so its
      centroid is recorded and the larger one's is a repeat, whichever of
      the two contours comes first in the frame. */
  lemma SmallerHoleRecordedFirst(s: HoleContour, b: HoleContour)
    requires CheckContour(s) && CheckContour(b) && s.ellipseFits && b.ellipseFits
    requires s.area < b.area
    requires Matches(ContourCenter(s.moments).value, ContourCenter(b.moments).value)
    ensures DetectHoles(EmptyTracker, [b, s]).tracker.centers == [ContourCenter(s.moments).value]
    ensures DetectHoles(EmptyTracker, [s, b]).tracker.centers == [ContourCenter(s.moments).value]
  {
    TwoHolesVisitOrder(s, b);
    TwoHolesFeed(s, b);
  }

  /** Two accepted contours of different areas are visited smaller first,
      in either contour order. */
  lemma TwoHolesVisitOrder(s: HoleContour, b: HoleContour)
    requires CheckContour(s) && CheckContour(b) && s.area < b.area
    ensures VisitOrder([b, s]) == [s, b]
    ensures VisitOrder([s, b]) == [s, b]
  {
    AcceptedSingle(s);
    AcceptedSingle(b);
    AcceptedAppend([b], [s]);
    AcceptedAppend([s], [b]);
    assert [b] + [s] == [b, s] && [s] + [b] == [s, b];
    assert SortBy([s], AreaKey) == [s];
    assert SortBy([b], AreaKey) == [b];
    assert InsertBy(b, [s], AreaKey) == [s, b];
    assert InsertBy(s, [b], AreaKey) == [s, b];
  }

  /** Feeding two fitting contours with matching centroids records only
      the first one's centroid. */
  lemma TwoHolesFeed(s: HoleContour, b: HoleContour)
    requires s.ellipseFits && b.ellipseFits
    requires ContourCenter(s.moments).Some? && ContourCenter(b.moments).Some?
    requires Matches(ContourCenter(s.moments).value, ContourCenter(b.moments).value)
    ensures Feed(EmptyTracker, [s, b]).centers == [ContourCenter(s.moments).value]
  {
    FeedAppend(EmptyTracker, [s], [b]);
    assert [s] + [b] == [s, b];
    FeedSingle(EmptyTracker, s);
    var t1 := Visit(EmptyTracker, s);
    assert t1 == Tracker([ContourCenter(s.moments).value]);
    FeedSingle(t1, b);
  }

  /** The counts shown over a run of frames, starting from tracker `t`:
      never below the starting size and never decreasing. */
  function ShownCounts(t: Tracker, frames: seq<seq<HoleContour>>): (shown: seq<nat>)
    ensures |shown| == |frames|
    ensures forall i :: 0 <= i < |shown| ==> |t.centers| <= shown[i]
    ensures forall i, j :: 0 <= i < j < |shown| ==> shown[i] <= shown[j]
    decreases |frames|
  {
    if |frames| == 0 then []
    else
      var r := DetectHoles(t, frames[0]);
      var rest := ShownCounts(r.tracker, frames[1..]);
      assert forall j :: 0 < j < |[r.shown] + rest| ==> ([r.shown] + rest)[j] == rest[j - 1];
      [r.shown] + rest
  }

  /** A single hole of area 1000 with a defined centroid, shown to a fresh
      tracker, is recorded as hole 1. */
  lemma SingleHoleScenario(m: Moments, zone: bool)
    requires m.m00 != 0.0
    ensures DetectHoles(EmptyTracker, [HoleContour(1000.0, m, true, zone)]).shown == 1
  {
    var h := HoleContour(1000.0, m, true, zone);
    assert Accepted([h]) == [h];
    assert VisitOrder([h]) == [h];
  }
}

=== FILE: optional.dfy ===
/** An optional value: the model's stand-in for Python's `None` results
    and for shape fits that raised. */
module Optional {
  datatype Option<T> = None | Some(value: T)
}

=== FILE: outgrowth.dfy ===
/** `detect_outgrowth` after contour extraction: gate and classify the
    contours, group them by kind, cluster each group and count clusters per
    kind. */
module Outgrowth {
  import opened Optional
  import opened EnclosingFigure
  import opened Candidates
  import opened ShapesDict
  import opened Clusters
  import opened ClusterCounts

  /** The per-kind counts shown for one frame. */
  function DetectOutgrowth(blobs: seq<Blob>): (counts: map<Kind, nat>)
    requires CentersDefined(blobs)
    ensures forall k :: k in counts ==> counts[k] > 0
  {
    var gs := GetShapesDict(Objects(blobs));
    CountClusters(CreateClusters(gs))
  }

  /** The count of a kind in a dictionary of groups: the number of clusters
      of its group, or 0 without a group. */
  function GroupClusterCount(gs: seq<Group>, k: Kind): nat
    requires forall i :: 0 <= i < |gs| ==> |gs[i].members| > 0
  {
    match GroupIndex(gs, k)
    case None => 0
    case Some(i) => |ClusterGroup(gs[i].members)|
  }

  /** The clusters of the first group count only for its kind. */
  lemma FirstGroupCount(gs: seq<Group>, k: Kind)
    requires |gs| > 0 && forall i :: 0 <= i < |gs| ==> |gs[i].members| > 0
    requires UniformGroups(gs)
    ensures FirstKindCount(ClusterGroup(gs[0].members), k)
            == if gs[0].kind == k then |ClusterGroup(gs[0].members)| else 0
  {
    ClusterGroupShape(gs[0]);
    UniformTail(gs);
    FirstKindCountUniform(ClusterGroup(gs[0].members), gs[0].kind, k);
  }

  /** Looking a kind up skips the first group unless it is that kind's. */
  lemma GroupClusterCountTail(gs: seq<Group>, k: Kind)
    requires |gs| > 0 && forall i :: 0 <= i < |gs| ==> |gs[i].members| > 0
    requires DistinctKinds(gs)
    ensures DistinctKinds(gs[1..])
    ensures GroupClusterCount(gs, k)
            == if gs[0].kind == k then |ClusterGroup(gs[0].members)| else GroupClusterCount(gs[1..], k)
  {
    assert forall i :: 0 <= i < |gs[1..]| ==> gs[1..][i] == gs[i + 1];
  }

  /** Kinds are counted independently: the clusters starting with `k` are
      exactly the clusters of `k`'s group. */
  lemma {:induction false} CreateClustersCount(gs: seq<Group>, k: Kind)
    requires forall i :: 0 <= i < |gs| ==> |gs[i].members| > 0
    requires DistinctKinds(gs) && UniformGroups(gs)
    ensures FirstKindCount(CreateClusters(gs), k) == GroupClusterCount(gs, k)
  {
    if |gs| > 0 {
      UniformTail(gs);
      GroupClusterCountTail(gs, k);
      CreateClustersCount(gs[1..], k);
      FirstKindCountAppend(ClusterGroup(gs[0].members), CreateClusters(gs[1..]), k);
      FirstGroupCount(gs, k);
    }
  }

  /** The end-to-end count for each kind: a kind is shown exactly when at
      least two of the frame's candidates have it, and its count is the
      number of clusters its candidates form on their own, whatever the
      other kinds are. */
  lemma DetectOutgrowthCounts(blobs: seq<Blob>, k: Kind)
    requires CentersDefined(blobs)
    ensures var members := OfKind(Objects(blobs), k);
            && (k in DetectOutgrowth(blobs) <==> |members| >= 2)
            && Lookup(DetectOutgrowth(blobs), k) == if |members| >= 2 then |ClusterGroup(members)| else 0
  {
    var objs := Objects(blobs);
    var gs := GetShapesDict(objs);
    var members := OfKind(objs, k);
    assert UniformGroups(gs) by {
      forall i, j | 0 <= i < |gs| && 0 <= j < |gs[i].members|
        ensures gs[i].members[j].kind == gs[i].kind
      {
        assert gs[i].members[j] in OfKind(objs, gs[i].kind);
      }
    }
    CreateClustersCount(gs, k);
    match GroupIndex(gs, k)
    case None =>
      assert members == [];
    case Some(i) =>
      assert gs[i].members == members;
  }
}

=== FILE: seq_facts.dfy ===
/** Generic facts about sequence concatenation, proved once in a context
    free of the model's quantifiers. */
module SeqFacts {

  /** Appending to an empty sequence changes nothing. */
  lemma EmptyAppend<T>(a: seq<T>, b: seq<T>)
    requires |a| == 0
    ensures a + b == b
  {
    assert a == [];
  }

  /** The head and tail of a concatenation with a non-empty front. */
  lemma AppendHeadTail<T>(a: seq<T>, b: seq<T>)
    requires |a| > 0
    ensures (a + b)[0] == a[0]
    ensures (a + b)[1..] == a[1..] + b
  {
  }

  /** A concatenation with a non-empty front, split at its first element. */
  lemma ConsAppend<T>(a: seq<T>, b: seq<T>)
    requires |a| > 0
    ensures a == [a[0]] + a[1..]
    ensures a + b == [a[0]] + (a[1..] + b)
  {
  }

  /** Concatenation is associative. */
  lemma AppendAssoc<T>(p: seq<T>, q: seq<T>, r: seq<T>)
    ensures p + (q + r) == (p + q) + r
  {
  }

  /** Two fronts commute when one of them is empty. */
  lemma FrontSwap<T>(p: seq<T>, q: seq<T>, tail: seq<T>)
    requires p == [] || q == []
    ensures p + (q + tail) == q + (p + tail)
  {
    if p == [] {
      assert p + (q + tail) == q + tail == q + (p + tail);
    } else {
      assert q + (p + tail) == p + tail == p + (q + tail);
    }
  }
}

=== FILE: shapes_dict.dfy ===
/** `get_shapes_dict`: the candidates grouped by kind. The source builds a
    dictionary whose keys appear in the order their kind first occurs; the
    model keeps that order as a sequence of groups. */
module ShapesDict {
  import opened Optional
  import opened EnclosingFigure
  import opened Candidates

  /** One dictionary entry: a kind and its candidates in input order. */
  datatype Group = Group(kind: Kind, members: seq<Candidate>)

  /** The candidates of kind `k`, in input order. */
  function OfKind(s: seq<Candidate>, k: Kind): (r: seq<Candidate>)
    ensures |r| <= |s|
    ensures forall c :: c in r ==> c in s && c.kind == k
  {
    if |s| == 0 then []
    else OfKind(s[..|s| - 1], k) + (if s[|s| - 1].kind == k then [s[|s| - 1]] else [])
  }

  /** The position of the group for `k`, if there is one. */
  function GroupIndex(gs: seq<Group>, k: Kind): (r: Option<nat>)
    ensures r.Some? ==> r.value < |gs| && gs[r.value].kind == k
    ensures r.Some? ==> forall j :: 0 <= j < r.value ==> gs[j].kind != k
    ensures r.None? <==> forall i :: 0 <= i < |gs| ==> gs[i].kind != k
  {
    if |gs| == 0 then None
    else if gs[0].kind == k then Some(0)
    else
      var r := GroupIndex(gs[1..], k);
      assert forall i :: 0 < i < |gs| ==> gs[i] == gs[1..][i - 1];
      if r.None? then None else Some(r.value + 1)
  }

  /** No two groups share a kind. */
  ghost predicate DistinctKinds(gs: seq<Group>) {
    forall i, j :: 0 <= i < j < |gs| ==> gs[i].kind != gs[j].kind
  }

  /** The number of candidates held by all groups together. */
  function TotalSize(gs: seq<Group>): nat {
    if |gs| == 0 then 0 else |gs[0].members| + TotalSize(gs[1..])
  }

  lemma {:induction false} TotalSizeAppend(gs: seq<Group>, g: Group)
    ensures TotalSize(gs + [g]) == TotalSize(gs) + |g.members|
  {
    if |gs| > 0 {
      assert (gs + [g])[1..] == gs[1..] + [g];
      TotalSizeAppend(gs[1..], g);
    }
  }

  lemma {:induction false} TotalSizeUpdate(gs: seq<Group>, i: nat, g: Group)
    requires i < |gs|
    ensures TotalSize(gs[i := g]) == TotalSize(gs) - |gs[i].members| + |g.members|
  {
    if i > 0 {
      assert gs[i := g][1..] == gs[1..][i - 1 := g];
      TotalSizeUpdate(gs[1..], i - 1, g);
    }
  }

  /** One step of the source's loop: append to the candidate's group, or
      open a new group at the end. */
  function AddCandidate(gs: seq<Group>, c: Candidate): (r: seq<Group>)
    ensures |gs| <= |r| <= |gs| + 1
    ensures GroupIndex(r, c.kind).Some?
    ensures var ms := r[GroupIndex(r, c.kind).value].members; |ms| > 0 && ms[|ms| - 1] == c
    ensures forall i :: 0 <= i < |gs| && gs[i].kind != c.kind ==> r[i] == gs[i]
    ensures GroupIndex(gs, c.kind).Some? ==>
      r[GroupIndex(gs, c.kind).value].members == gs[GroupIndex(gs, c.kind).value].members + [c]
    ensures forall i :: 0 <= i < |gs| ==> r[i].kind == gs[i].kind
    ensures |r| == |gs| <==> GroupIndex(gs, c.kind).Some?
  {
    match GroupIndex(gs, c.kind)
    case None =>
      var r := gs + [Group(c.kind, [c])];
      GroupIndexFirst(r, c.kind, |gs|);
      r
    case Some(i) =>
      var r := gs[i := Group(c.kind, gs[i].members + [c])];
      GroupIndexFirst(r, c.kind, i);
      r
  }

  /** The group found for a kind is the first one holding it. */
  lemma {:induction false} GroupIndexFirst(gs: seq<Group>, k: Kind, i: nat)
    requires i < |gs| && gs[i].kind == k
    requires forall j :: 0 <= j < i ==> gs[j].kind != k
    ensures GroupIndex(gs, k) == Some(i)
  {
    if i > 0 {
      GroupIndexFirst(gs[1..], k, i - 1);
    }
  }

  /** `gs` is the dictionary for `objs`: kinds are distinct, each group
      holds exactly the candidates of its kind in input order (so is never
      empty), and a group exists exactly for the kinds that occur. */
  ghost predicate GroupsOf(objs: seq<Candidate>, gs: seq<Group>) {
    && DistinctKinds(gs)
    && (forall i :: 0 <= i < |gs| ==> gs[i].members == OfKind(objs, gs[i].kind))
    && (forall i :: 0 <= i < |gs| ==> |gs[i].members| > 0)
    && (forall k :: GroupIndex(gs, k).None? <==> OfKind(objs, k) == [])
  }

  /** Extending the input by one candidate extends only its kind's run. */
  lemma OfKindSnoc(objs': seq<Candidate>, k: Kind)
    requires |objs'| > 0
    ensures OfKind(objs', k) == OfKind(objs'[..|objs'| - 1], k)
                                + (if objs'[|objs'| - 1].kind == k then [objs'[|objs'| - 1]] else [])
  {
  }

  /** Appending a group for a kind not yet present keeps kinds distinct. */
  lemma AppendKeepsDistinct(gs: seq<Group>, g: Group)
    requires DistinctKinds(gs)
    requires GroupIndex(gs, g.kind).None?
    ensures DistinctKinds(gs + [g])
  {
    var gs' := gs + [g];
    forall i, j | 0 <= i < j < |gs'| ensures gs'[i].kind != gs'[j].kind {
      if j < |gs| {
        assert gs'[i] == gs[i] && gs'[j] == gs[j];
      }
    }
  }

  /** The step for a candidate whose kind has no group yet. */
  lemma NewGroupStep(objs': seq<Candidate>, gs: seq<Group>)
    requires |objs'| > 0
    requires GroupsOf(objs'[..|objs'| - 1], gs)
    requires GroupIndex(gs, objs'[|objs'| - 1].kind).None?
    ensures GroupsOf(objs', gs + [Group(objs'[|objs'| - 1].kind, [objs'[|objs'| - 1]])])
  {
    var c := objs'[|objs'| - 1];
    var gs' := gs + [Group(c.kind, [c])];
    AppendKeepsDistinct(gs, Group(c.kind, [c]));
    NewGroupMembers(objs', gs);
    NewGroupIndex(objs', gs);
  }

  lemma NewGroupMembers(objs': seq<Candidate>, gs: seq<Group>)
    requires |objs'| > 0
    requires GroupsOf(objs'[..|objs'| - 1], gs)
    requires GroupIndex(gs, objs'[|objs'| - 1].kind).None?
    ensures var gs' := gs + [Group(objs'[|objs'| - 1].kind, [objs'[|objs'| - 1]])];
            forall i :: 0 <= i < |gs'| ==> gs'[i].members == OfKind(objs', gs'[i].kind)
  {
    var c := objs'[|objs'| - 1];
    var gs' := gs + [Group(c.kind, [c])];
    forall i | 0 <= i < |gs'|
      ensures gs'[i].members == OfKind(objs', gs'[i].kind)
    {
      OfKindSnoc(objs', gs'[i].kind);
      if i < |gs| {
        assert gs'[i] == gs[i];
      }
    }
  }

  lemma NewGroupIndex(objs': seq<Candidate>, gs: seq<Group>)
    requires |objs'| > 0
    requires GroupsOf(objs'[..|objs'| - 1], gs)
    requires GroupIndex(gs, objs'[|objs'| - 1].kind).None?
    ensures var gs' := gs + [Group(objs'[|objs'| - 1].kind, [objs'[|objs'| - 1]])];
            forall k :: GroupIndex(gs', k).None? <==> OfKind(objs', k) == []
  {
    var c := objs'[|objs'| - 1];
    var gs' := gs + [Group(c.kind, [c])];
    forall k
      ensures GroupIndex(gs', k).None? <==> OfKind(objs', k) == []
    {
      OfKindSnoc(objs', k);
      if k == c.kind {
        assert gs'[|gs|].kind == k;
      } else {
        assert GroupIndex(gs', k).None? <==> GroupIndex(gs, k).None?;
      }
    }
  }

  /** The step for a candidate whose kind already has the group at `i`. */
  lemma ExtendGroupStep(objs': seq<Candidate>, gs: seq<Group>, i: nat)
    requires |objs'| > 0
    requires GroupsOf(objs'[..|objs'| - 1], gs)
    requires i < |gs| && gs[i].kind == objs'[|objs'| - 1].kind
    ensures GroupsOf(objs', gs[i := Group(gs[i].kind, gs[i].members + [objs'[|objs'| - 1]])])
  {
    var c := objs'[|objs'| - 1];
    var gs' := gs[i := Group(gs[i].kind, gs[i].members + [c])];
    assert forall j :: 0 <= j < |gs| ==> gs'[j].kind == gs[j].kind;
    ExtendGroupMembers(objs', gs, i);
    ExtendGroupIndex(objs', gs, i);
  }

  lemma ExtendGroupMembers(objs': seq<Candidate>, gs: seq<Group>, i: nat)
    requires |objs'| > 0
    requires GroupsOf(objs'[..|objs'| - 1], gs)
    requires i < |gs| && gs[i].kind == objs'[|objs'| - 1].kind
    ensures var gs' := gs[i := Group(gs[i].kind, gs[i].members + [objs'[|objs'| - 1]])];
            forall j :: 0 <= j < |gs'| ==> gs'[j].members == OfKind(objs', gs'[j].kind)
  {
    var c := objs'[|objs'| - 1];
    var gs' := gs[i := Group(gs[i].kind, gs[i].members + [c])];
    forall j | 0 <= j < |gs'|
      ensures gs'[j].members == OfKind(objs', gs'[j].kind)
    {
      OfKindSnoc(objs', gs'[j].kind);
    }
  }

  lemma ExtendGroupIndex(objs': seq<Candidate>, gs: seq<Group>, i: nat)
    requires |objs'| > 0
    requires GroupsOf(objs'[..|objs'| - 1], gs)
    requires i < |gs| && gs[i].kind == objs'[|objs'| - 1].kind
    ensures var gs' := gs[i := Group(gs[i].kind, gs[i].members + [objs'[|objs'| - 1]])];
            forall k :: GroupIndex(gs', k).None? <==> OfKind(objs', k) == []
  {
    var c := objs'[|objs'| - 1];
    var gs' := gs[i := Group(gs[i].kind, gs[i].members + [c])];
    assert forall j :: 0 <= j < |gs| ==> gs'[j].kind == gs[j].kind;
    forall k
      ensures GroupIndex(gs', k).None? <==> OfKind(objs', k) == []
    {
      OfKindSnoc(objs', k);
      SameKindsSameIndex(gs, gs', k);
    }
  }

  /** Where a group is found depends only on the groups' kinds. */
  lemma {:induction false} SameKindsSameIndex(gs: seq<Group>, gs': seq<Group>, k: Kind)
    requires |gs| == |gs'|
    requires forall j :: 0 <= j < |gs| ==> gs'[j].kind == gs[j].kind
    ensures GroupIndex(gs', k) == GroupIndex(gs, k)
  {
    if |gs| > 0 {
      SameKindsSameIndex(gs[1..], gs'[1..], k);
    }
  }

  /** One loop step keeps the dictionary faithful to the candidates seen so
      far and adds one to the total size. */
  lemma AddCandidateStep(objs': seq<Candidate>, gs: seq<Group>)
    requires |objs'| > 0
    requires GroupsOf(objs'[..|objs'| - 1], gs)
    ensures GroupsOf(objs', AddCandidate(gs, objs'[|objs'| - 1]))
    ensures TotalSize(AddCandidate(gs, objs'[|objs'| - 1])) == TotalSize(gs) + 1
  {
    var c := objs'[|objs'| - 1];
    match GroupIndex(gs, c.kind)
    case None =>
      TotalSizeAppend(gs, Group(c.kind, [c]));
      NewGroupStep(objs', gs);
    case Some(i) =>
      TotalSizeUpdate(gs, i, Group(c.kind, gs[i].members + [c]));
      ExtendGroupStep(objs', gs, i);
  }

  /** The dictionary after all candidates; its group sizes add up to the
      number of candidates. The groups are kept in order of each kind's first
      appearance; that order is carried by the body alone and only decides
      the order in which the kinds are displayed. */
  function GetShapesDict(objs: seq<Candidate>): (gs: seq<Group>)
    ensures GroupsOf(objs, gs)
    ensures TotalSize(gs) == |objs|
  {
    if |objs| == 0 then []
    else
      var prev := GetShapesDict(objs[..|objs| - 1]);
      AddCandidateStep(objs, prev);
      AddCandidate(prev, objs[|objs| - 1])
  }
}

=== FILE: stable_sort.dfy ===
/** Stable sorting by a real-valued key.

    Both scripts sort with Python's `sorted(..., key=...)`, which is stable:
    elements with equal keys keep their input order. The model sorts by
    insertion and proves that the result is ordered and keeps, for every key
    value, the input's subsequence of elements with that key. `SortedUnique`
    shows these two facts pin the output down, so any stable sort (Python's
    included) returns the same sequence. */
module StableSort {
  import opened SeqFacts

  /** Keys never decrease along `s`. */
  ghost predicate SortedBy<T>(s: seq<T>, key: T -> real) {
    forall i, j :: 0 <= i < j < |s| ==> key(s[i]) <= key(s[j])
  }

  /** The elements of `s` whose key is `v`, in their order in `s`. */
  function KeyClass<T>(s: seq<T>, key: T -> real, v: real): (r: seq<T>)
    ensures |r| <= |s|
    ensures forall x :: x in r ==> x in s && key(x) == v
  {
    if |s| == 0 then []
    else (if key(s[0]) == v then [s[0]] else []) + KeyClass(s[1..], key, v)
  }

  /** Inserts `x` in front of the first element whose key is not smaller. */
  function InsertBy<T>(x: T, s: seq<T>, key: T -> real): (r: seq<T>)
    requires SortedBy(s, key)
    ensures SortedBy(r, key)
    ensures |r| == |s| + 1
    ensures forall y :: y in r ==> y == x || y in s
  {
    if |s| == 0 || key(x) <= key(s[0]) then [x] + s
    else
      var rest := InsertBy(x, s[1..], key);
      assert forall y :: y in rest ==> key(s[0]) <= key(y) by {
        forall y | y in s[1..] ensures key(s[0]) <= key(y) {
          var i :| 0 <= i < |s[1..]| && s[1..][i] == y;
          assert s[i + 1] == y;
        }
      }
      [s[0]] + rest
  }

  /** Inserting adds `x` once and keeps every other element. */
  lemma {:induction false} InsertByMultiset<T>(x: T, s: seq<T>, key: T -> real)
    requires SortedBy(s, key)
    ensures multiset(InsertBy(x, s, key)) == multiset(s) + multiset{x}
  {
    if |s| > 0 && key(x) > key(s[0]) {
      InsertByMultiset(x, s[1..], key);
      assert s == [s[0]] + s[1..];
    }
  }

  /** Inserting puts `x` in front of the elements that share its key. */
  lemma {:induction false} InsertByKeyClass<T>(x: T, s: seq<T>, key: T -> real, v: real)
    requires SortedBy(s, key)
    ensures KeyClass(InsertBy(x, s, key), key, v)
            == (if key(x) == v then [x] else []) + KeyClass(s, key, v)
  {
    if |s| == 0 || key(x) <= key(s[0]) {
      KeyClassCons(x, s, key, v);
    } else {
      assert SortedBy(s[1..], key) by {
        forall i, j | 0 <= i < j < |s[1..]| ensures key(s[1..][i]) <= key(s[1..][j]) {
          assert s[1..][i] == s[i + 1] && s[1..][j] == s[j + 1];
        }
      }
      var rest := InsertBy(x, s[1..], key);
      InsertByKeyClass(x, s[1..], key, v);
      KeyClassCons(s[0], rest, key, v);
      KeyClassCons(s[0], s[1..], key, v);
      assert s == [s[0]] + s[1..];
      FrontSwap(if key(s[0]) == v then [s[0]] else [], if key(x) == v then [x] else [],
                KeyClass(s[1..], key, v));
    }
  }

  /** The key class of a sequence with a known first element. */
  lemma KeyClassCons<T>(a: T, t: seq<T>, key: T -> real, v: real)
    ensures KeyClass([a] + t, key, v) == (if key(a) == v then [a] else []) + KeyClass(t, key, v)
  {
    assert ([a] + t)[1..] == t;
  }

  /** Python's stable `sorted(xs, key=key)`. */
  function SortBy<T>(xs: seq<T>, key: T -> real): (r: seq<T>)
    ensures SortedBy(r, key)
    ensures |r| == |xs|
    ensures multiset(r) == multiset(xs)
    ensures forall v :: KeyClass(r, key, v) == KeyClass(xs, key, v)
  {
    if |xs| == 0 then []
    else
      assert xs == [xs[0]] + xs[1..];
      var rest := SortBy(xs[1..], key);
      InsertByMultiset(xs[0], rest, key);
      forall v
        ensures KeyClass(InsertBy(xs[0], rest, key), key, v) == KeyClass(xs, key, v)
      {
        InsertByKeyClass(xs[0], rest, key, v);
      }
      InsertBy(xs[0], rest, key)
  }

  /** A sorted sequence is determined by its per-key subsequences: two
      sequences that are both sorted and agree on every key class are equal. */
  lemma {:induction false} SortedUnique<T>(a: seq<T>, b: seq<T>, key: T -> real)
    requires SortedBy(a, key) && SortedBy(b, key)
    requires forall v :: KeyClass(a, key, v) == KeyClass(b, key, v)
    ensures a == b
  {
    if |a| > 0 {
      assert KeyClass(a, key, key(a[0]))[0] == a[0];
    }
    if |b| > 0 {
      assert KeyClass(b, key, key(b[0]))[0] == b[0];
    }
    if |a| > 0 && |b| > 0 {
      var va, vb := key(a[0]), key(b[0]);
      assert a[0] in KeyClass(b, key, va) by {
        assert KeyClass(a, key, va)[0] == a[0];
      }
      assert b[0] in KeyClass(a, key, vb) by {
        assert KeyClass(b, key, vb)[0] == b[0];
      }
      FirstKeyIsLeast(b, key, a[0]);
      FirstKeyIsLeast(a, key, b[0]);
      assert va == vb;
      assert a[0] == KeyClass(a, key, va)[0] == KeyClass(b, key, va)[0] == b[0];
      forall v
        ensures KeyClass(a[1..], key, v) == KeyClass(b[1..], key, v)
      {
        var n := if va == v then 1 else 0;
        assert KeyClass(a[1..], key, v) == KeyClass(a, key, v)[n..];
        assert KeyClass(b[1..], key, v) == KeyClass(b, key, v)[n..];
      }
      SortedUnique(a[1..], b[1..], key);
      assert a == [a[0]] + a[1..] && b == [b[0]] + b[1..];
    }
  }

  /** In a sorted sequence no element has a key below the first one's. */
  lemma FirstKeyIsLeast<T>(s: seq<T>, key: T -> real, x: T)
    requires SortedBy(s, key)
    requires |s| > 0 && x in s
    ensures key(s[0]) <= key(x)
  {
    var i :| 0 <= i < |s| && s[i] == x;
    if i > 0 {
      assert key(s[0]) <= key(s[i]);
    }
  }
}
